=== FILE: README.md ===
# Firehose transformation handlers

This project models the three AWS Firehose data-transformation Lambda handlers of the
order-ingestion pipeline. Each handler receives a batch of records (`recordId` plus
base64 JSON `data`). Each record's payload is decoded and its timestamp parsed: the
handler takes `order_date`, strips trailing `Z`s and parses the rest as an ISO 8601
date-time. It then returns Firehose output records. Every output carries `result`
`Ok`, a base64 JSON `data` and `metadata.partitionKeys`. The handlers are:

- **product details** (one-to-many): one output per element of `product_details`. The
  first product keeps the input `recordId`, and the product at `enumerate` index `i > 0`
  gets `recordId_i`. The choice is made by the `original_record_id_used` flag.
- **shipping addresses** (one-to-one): `order_id` and the five address fields. The partition keys are
  `country`, `year`, `month`, `day` and `hour`.
- **orders** (one-to-one): `customer_id`, `order_id`, `status` and the date part of
  `order_date` (`YYYY-MM-DD`). The partition keys are `customer_id`, `year`, `month`,
  `day` and `hour`.

Modules:

- `Wrappers`: `Option`, `Result` and an order-keeping `Traverse`.
- `Faults`: the exception each lookup can raise.
- `Digits`: zero-padded decimal text as in `strftime('%m')`, and plain decimal text as in `str(index)`.
- `Timestamp`: `rstrip("Z")`, `fromisoformat`, `strftime` and `isoformat`.
- `Json`: decoded JSON values and `dict[key]` lookup.
- `Firehose`:
  - the record shapes;
  - the base64/JSON codec, passed in as a parameter;
  - the calendar partition keys;
  - the shared record loop `RunBatch`.
- `ProductDetailsTransformation`, `ShippingAddressesTransformation` and
  `OrdersTransformation`: one module per handler.

Three consequences of the code shape the model:

- **Failures.** The handlers contain no `try`/`except`, and no handler writes
  `ProcessingFailed`. The first record that raises aborts the whole invocation. Every
  handler is therefore a `Result`: either all the outputs in record order, or the fault
  of the first record that raises.
- **Lookups.** Each field is read at the line that uses it, and none is checked up front. So a product-details
  record with an empty `product_details` needs no `order_id` (`EmptyProductDetails`).
  In the orders handler, a missing `customer_id` is reported before a missing
  `order_id`.
- **Output ids.** The ids of one record's products are distinct. Across a batch they
  are distinct when the input record ids are distinct and contain no `_`. Otherwise
  two records can yield the same id (`CrossRecordIdsCollide`).

## Model

| member | source | states |
|---|---|---|
| Timestamp.ParseIso | lambda_orders_transformation/lambda_function.py:24 | a parsed timestamp is a valid calendar date-time (years 1..9999, real month lengths, hour < 24), and its ISO text is exactly the input |
| Timestamp.ParseIsoExactly | lambda_orders_transformation/lambda_function.py:24 | the parser accepts a text and yields `d` if and only if `d` is valid and the text is `d`'s ISO form |
| Timestamp.ParseIsoOfIsoFormat | lambda_orders_transformation/lambda_function.py:24 | every valid date-time parses back from its ISO form |
| Timestamp.RStrip | lambda_orders_transformation/lambda_function.py:24 | `rstrip("Z")` returns a prefix that does not end in `Z`, and only `Z`s were removed |
| Timestamp.RStripUnique | lambda_orders_transformation/lambda_function.py:24 | those three properties determine the stripped text |
| Timestamp.RStripIdempotent | lambda_orders_transformation/lambda_function.py:24 | stripping `Z`s a second time changes nothing |
| Timestamp.RStripAppended | lambda_orders_transformation/lambda_function.py:24 | appending any number of `Z`s does not change the stripped text |
| Timestamp.TrailingZIgnored | lambda_orders_transformation/lambda_function.py:24 | `order_date` with or without trailing `Z`s parses to the same timestamp, or fails alike |
| Timestamp.ParseOrderDate | lambda_orders_transformation/lambda_function.py:24 | a parsed `order_date` is a valid date-time whose ISO form is the text with its trailing `Z`s removed |
| Timestamp.Year | lambda_orders_transformation/lambda_function.py:26 | `%Y` is four digits that read back as the year (every valid year is below 10000) |
| Timestamp.Month | lambda_orders_transformation/lambda_function.py:27 | `%m` is two digits that read back as the month |
| Timestamp.Day | lambda_orders_transformation/lambda_function.py:28 | `%d` is two digits that read back as the day |
| Timestamp.Hour | lambda_orders_transformation/lambda_function.py:29 | `%H` is two digits that read back as the hour |
| Timestamp.IsoDate | lambda_orders_transformation/lambda_function.py:32 | `date().isoformat()` is ten characters: the `%Y`, `%m` and `%d` fields separated by `-` at positions 4 and 7 |
| Timestamp.CalendarFieldsOfText | lambda_orders_transformation/lambda_function.py:26-32 | after a successful parse, `%Y`, `%m`, `%d` and `%H` are character ranges 0-4, 5-7, 8-10 and 11-13 of the stripped text; `date().isoformat()` is its first 10 characters |
| Timestamp.DaysInMonth | lambda_orders_transformation/lambda_function.py:24 | February has 29 days in a Gregorian leap year and 28 otherwise; April, June, September and November, and only they, have 30; the other months have 31 |
| Digits.Pad | lambda_orders_transformation/lambda_function.py:26-29 | `strftime` fields are exactly `width` digits whose value is the field modulo 10^width |
| Digits.PadOfValue | lambda_orders_transformation/lambda_function.py:26-29 | padding a digit string's value to its own length gives back the string |
| Digits.ValueOfPad | lambda_orders_transformation/lambda_function.py:26-29 | a zero-padded field reads back as the number when it fits the width |
| Digits.Decimal | lambda_product_details_tranformation/lambda_function.py:53 | `str(index)` is non-empty, all digits, has no leading zero and reads back as `index` |
| Digits.DecimalInjective | lambda_product_details_tranformation/lambda_function.py:53 | different indices have different decimal texts |
| Json.Find | lambda_orders_transformation/lambda_function.py:25 | a key lookup fails exactly when no member has that name; otherwise it yields the last member of that name (what `json.loads` keeps) |
| Json.GetMember | lambda_orders_transformation/lambda_function.py:25 | a member whose name does not recur later is what `dict[key]` returns |
| Json.GetAbsent | lambda_orders_transformation/lambda_function.py:25 | looking up a name no member has raises `KeyError` |
| Json.GetOutcome | lambda_orders_transformation/lambda_function.py:25 | `value[key]` raises TypeError on anything but a dict; on a dict it succeeds exactly when some member has that name and raises KeyError otherwise; a value found is a member under that name |
| Firehose.DecodePayload | lambda_orders_transformation/lambda_function.py:17-18 | decoding succeeds exactly when the codec accepts the text, and yields the codec's value |
| Firehose.OrderTimestamp | lambda_orders_transformation/lambda_function.py:24 | succeeds if and only if `order_date` exists, is a string and parses after stripping `Z`s; the result is valid and its ISO form is the stripped text |
| Firehose.OrderTimestampTrailingZ | lambda_orders_transformation/lambda_function.py:24 | payloads whose `order_date` differ only in trailing `Z`s get the same timestamp or the same fault |
| Firehose.CalendarKeys | lambda_orders_transformation/lambda_function.py:26-29 | exactly the keys year, month, day and hour; all digit strings of widths 4, 2, 2 and 2 whose values are the date-time's fields |
| Firehose.CalendarKeysOfText | lambda_shipping_addresses_transformation/lambda_function.py:24-29 | the calendar keys are verbatim slices of the `Z`-stripped `order_date` |
| Firehose.KeysWith | lambda_shipping_addresses_transformation/lambda_function.py:25-29 | the partition keys are the calendar keys plus one payload value under its own name (country, or customer_id in the orders handler); the calendar values are unchanged |
| Firehose.RunBatch | lambda_orders_transformation/lambda_function.py:15-56 | a batch succeeds if and only if every record's step succeeds; otherwise its fault is that of the first record that fails |
| Firehose.RunBatchLength | lambda_product_details_tranformation/lambda_function.py:66 | a successful batch has exactly as many outputs as its records produce in total |
| Firehose.ProducedIsTotal | lambda_product_details_tranformation/lambda_function.py:15-66 | records that all succeed, each with a given number of outputs, produce the sum of those numbers |
| Firehose.RunBatchPosition | lambda_product_details_tranformation/lambda_function.py:15-66 | output `j` of record `k` is at position (outputs of records before `k`) + `j` |
| Firehose.RunBatchOrigin | lambda_product_details_tranformation/lambda_function.py:15-66 | every output position is output `j` of some record `k`, at that offset |
| Firehose.RunBatchAppend | lambda_orders_transformation/lambda_function.py:15-56 | processing a batch in two parts gives the same result or fault as processing it whole |
| Firehose.RunBatchPrefixFails | lambda_orders_transformation/lambda_function.py:15-56 | once a prefix of the batch fails, the whole batch fails with that fault |
| Firehose.RunBatchOneToOne | lambda_orders_transformation/lambda_function.py:46-56 | when every record yields one output, output `i` is record `i`'s output and the counts agree |
| Wrappers.Traverse | lambda_product_details_tranformation/lambda_function.py:34-43 | mapping a failing step over a list succeeds if and only if every element succeeds, keeping length and order |
| Wrappers.TraverseFirstFailure | lambda_product_details_tranformation/lambda_function.py:34-43 | the first failing element decides the fault |
| OrdersTransformation.SummaryJson | lambda_orders_transformation/lambda_function.py:35-40 | the `data` object has exactly the four fields customer_id, order_id, order_date and status, each carrying the summary's value |
| OrdersTransformation.Summarize | lambda_orders_transformation/lambda_function.py:24-40 | succeeds if and only if the timestamp parses and customer_id, order_id and status exist; the copied fields are verbatim, order_date is the date part, and the keys are the calendar keys plus customer_id |
| OrdersTransformation.SummaryAgreesWithKeys | lambda_orders_transformation/lambda_function.py:24-40 | the summary's customer_id is the customer_id key; its order_date is year-month-day of the keys, which is the first 10 characters of the `Z`-stripped `order_date` |
| OrdersTransformation.LambdaHandler | lambda_orders_transformation/lambda_function.py:15-62 | succeeds if and only if every record decodes and summarises; then there is one output per record, in order, under the input `recordId` with `Ok` |
| OrdersTransformation.TrailingZIrrelevant | lambda_orders_transformation/lambda_function.py:24 | payloads that differ only in trailing `Z`s on `order_date` summarise identically |
| OrdersTransformation.SummarizeCongruent | lambda_orders_transformation/lambda_function.py:24-40 | the summary depends only on the timestamp and the three copied fields |
| OrdersTransformation.TransformRecord | lambda_orders_transformation/lambda_function.py:15-56 | a record succeeds if and only if its payload decodes and summarises; then it yields exactly one output, under its own `recordId`, with `Ok` and the summary's partition keys |
| OrdersTransformation.OutputDecodes | lambda_orders_transformation/lambda_function.py:35-43 | under a lossless codec each output decodes to the payload's customer, order and status and the date part of the stripped `order_date` |
| ShippingAddressesTransformation.AddressJson | lambda_shipping_addresses_transformation/lambda_function.py:32-39 | the `data` object has exactly `order_id` and the five address fields, each carrying the projected value |
| ShippingAddressesTransformation.SelectAddress | lambda_shipping_addresses_transformation/lambda_function.py:25-38 | succeeds if and only if order_id and the five `shipping_address` fields exist; each field is copied verbatim |
| ShippingAddressesTransformation.AddressField | lambda_shipping_addresses_transformation/lambda_function.py:34-38 | `shipping_address[field]` succeeds exactly when both lookups do, and then yields the field's value in the `shipping_address` object; a failure is a TypeError or KeyError on `shipping_address` or on the field |
| ShippingAddressesTransformation.Project | lambda_shipping_addresses_transformation/lambda_function.py:24-39 | succeeds if and only if the timestamp parses and the address is selectable; the keys are the calendar keys plus the address's country |
| ShippingAddressesTransformation.MissingAddressFieldFails | lambda_shipping_addresses_transformation/lambda_function.py:34-38 | a missing address field fails the record |
| ShippingAddressesTransformation.TransformRecord | lambda_shipping_addresses_transformation/lambda_function.py:15-55 | a record succeeds if and only if its payload decodes and projects; then it yields exactly one output, under its own `recordId`, with `Ok` and the projection's partition keys |
| ShippingAddressesTransformation.LambdaHandler | lambda_shipping_addresses_transformation/lambda_function.py:15-61 | succeeds if and only if every record decodes and projects; then there is one output per record, in order, under the input `recordId` with `Ok` |
| ShippingAddressesTransformation.OutputDecodes | lambda_shipping_addresses_transformation/lambda_function.py:32-48 | under a lossless codec each output decodes to the payload's address fields, and its country equals the country partition key |
| ProductDetailsTransformation.ItemJson | lambda_product_details_tranformation/lambda_function.py:36-43 | the `data` object has exactly the six line-item fields, each carrying the item's value |
| ProductDetailsTransformation.DetailField | lambda_product_details_tranformation/lambda_function.py:41-42 | `item_details[field]` succeeds exactly when both lookups do, and then yields the field's value in the `item_details` object; a failure is a TypeError or KeyError on `item_details` or on the field |
| ProductDetailsTransformation.ProjectProduct | lambda_product_details_tranformation/lambda_function.py:36-43 | succeeds if and only if product_id, order_id, name, quantity and item_details color and size exist; each is copied verbatim |
| ProductDetailsTransformation.ProjectProducts | lambda_product_details_tranformation/lambda_function.py:34-43 | all products project in order, or the first failing product's fault is returned |
| ProductDetailsTransformation.ProductList | lambda_product_details_tranformation/lambda_function.py:34-37 | a list is walked element by element; an empty string or dict yields nothing; a non-empty one fails at `['product_id']`; any other value is not iterable |
| ProductDetailsTransformation.AllocateId | lambda_product_details_tranformation/lambda_function.py:48-53 | index 0 keeps the record id; index `i > 0` is the record id, `_`, then digits whose value is `i` |
| ProductDetailsTransformation.AllocatedIdsDistinct | lambda_product_details_tranformation/lambda_function.py:48-53 | within one record, different products get different ids |
| ProductDetailsTransformation.AllocateIdInjective | lambda_product_details_tranformation/lambda_function.py:48-53 | for record ids without `_`, an output id determines both the record id and the product index |
| ProductDetailsTransformation.CrossRecordIdsCollide | lambda_product_details_tranformation/lambda_function.py:53 | the second product of record `a` and the first of record `a_1` get the same id `a_1` |
| ProductDetailsTransformation.EmptyProductDetails | lambda_product_details_tranformation/lambda_function.py:34-38 | an empty `product_details` yields no outputs, even without an order_id |
| ProductDetailsTransformation.EmitOutputs | lambda_product_details_tranformation/lambda_function.py:48-61 | every output of a record is `Ok` under the record's partition keys, the first keeps the input `recordId`, and no two share an id |
| ProductDetailsTransformation.Prepare | lambda_product_details_tranformation/lambda_function.py:17-43 | succeeds if and only if the payload decodes, the timestamp parses, `product_details` is iterable and every product projects |
| ProductDetailsTransformation.TransformRecord | lambda_product_details_tranformation/lambda_function.py:17-66 | a record succeeds if and only if its payload steps all succeed, and then it yields exactly one output per product |
| ProductDetailsTransformation.RecordOutput | lambda_product_details_tranformation/lambda_function.py:36-61 | output `i` of a record has the id allocated to index `i`, `Ok`, the encoded line item of product `i` and the record's calendar keys |
| ProductDetailsTransformation.TransformRecordLoop | lambda_product_details_tranformation/lambda_function.py:24-66 | the loop with the `original_record_id_used` flag computes exactly `TransformRecord` |
| ProductDetailsTransformation.LambdaHandler | lambda_product_details_tranformation/lambda_function.py:15-72 | succeeds if and only if every record transforms |
| ProductDetailsTransformation.LambdaHandlerLoop | lambda_product_details_tranformation/lambda_function.py:15-72 | the record loop that appends outputs computes exactly `LambdaHandler`, including the first fault |
| ProductDetailsTransformation.RecordOutputCount | lambda_product_details_tranformation/lambda_function.py:34-66 | a record yields as many outputs as its `product_details` has products |
| ProductDetailsTransformation.ProductsOfSource | lambda_product_details_tranformation/lambda_function.py:34 | a record has products only when its payload decodes and `product_details` is a list, and then the products are that list's items |
| ProductDetailsTransformation.TotalProductsZero | lambda_product_details_tranformation/lambda_function.py:15-66 | the batch total is zero exactly when no record has a product |
| ProductDetailsTransformation.ProducedIsTotalProducts | lambda_product_details_tranformation/lambda_function.py:15-66 | the records together produce the sum of their product counts |
| ProductDetailsTransformation.OutputCount | lambda_product_details_tranformation/lambda_function.py:15-66 | the batch has exactly the total number of products |
| ProductDetailsTransformation.OutputPosition | lambda_product_details_tranformation/lambda_function.py:15-66 | product `j` of record `k` sits after all earlier records' outputs and after its own earlier products |
| ProductDetailsTransformation.OutputOffset | lambda_product_details_tranformation/lambda_function.py:15-66 | the outputs before record `k` number the products of the earlier records |
| ProductDetailsTransformation.OutputIdOrigin | lambda_product_details_tranformation/lambda_function.py:48-66 | every output id is the id allocated to some product of some input record |
| ProductDetailsTransformation.OutputIdsDistinct | lambda_product_details_tranformation/lambda_function.py:48-66 | with distinct record ids free of `_`, all output ids in the batch are pairwise distinct |

## Left out

- Printing and logging of the event, payloads and outputs. These produce no result the handler returns.
- base64 and JSON serialisation. They are the parameter `Codec`. Properties that need a round trip assume it through `Lossless`.
- `json.loads` number types. Numbers are integers only, and floats are not modelled; copied values pass through unchanged, so this changes no contract.
- The Lambda transport, the `context` argument, and the surrounding `{'records': [...]}` wrapper: the model returns the record list.
- Timestamp.ParseIso: accepts only `YYYY-MM-DDTHH:MM:SS`. Every other text yields `InvalidIsoFormat` in the model although Python's `fromisoformat` accepts it: a date alone, reduced-precision times (`YYYY-MM-DDTHH`, `YYYY-MM-DDTHH:MM`), fractional seconds, UTC offsets, a separator other than `T` and the basic format. For such a record the model's failure is not the handler's.
- Timestamp.Year: assumes `%Y` is zero-padded to four digits. Some C libraries print years below 1000 without padding.
- Firehose.CalendarKeys: takes its `year` key from `Timestamp.Year`, so it makes the same assumption about `%Y`.
- The kinesis consumer and the producer script. They are outside the transformation handlers.
- A per-record `ProcessingFailed` result. No handler emits one. A record that raises fails the whole invocation, and the model returns that first fault.
- Cross-record id uniqueness for the product handler. It does not hold in general (`CrossRecordIdsCollide`). `OutputIdsDistinct` gives a sufficient condition instead.

=== FILE: digits.dfy ===
/** Decimal digit strings: the zero-padded fields `strftime` writes for
    `%Y`, `%m`, `%d` and `%H`, and the unpadded decimal of an f-string `{index}`. */
module Digits {

  function Pow10(n: nat): (r: nat)
    ensures r >= 1
  {
    if n == 0 then 1 else 10 * Pow10(n - 1)
  }

  predicate IsDigit(c: char) {
    '0' <= c <= '9'
  }

  predicate AllDigits(s: string) {
    forall i :: 0 <= i < |s| ==> IsDigit(s[i])
  }

  function DigitValue(c: char): (d: nat)
    requires IsDigit(c)
    ensures d < 10
  {
    c as int - '0' as int
  }

  function DigitChar(d: nat): (c: char)
    requires d < 10
    ensures IsDigit(c) && DigitValue(c) == d
  {
    ('0' as int + d) as char
  }

  lemma CharOfValue(c: char)
    requires IsDigit(c)
    ensures DigitChar(DigitValue(c)) == c
  {
  }

  /** The number a digit string denotes, most significant digit first. */
  function Value(s: string): (n: nat)
    requires AllDigits(s)
    ensures n < Pow10(|s|)
  {
    if |s| == 0 then 0 else 10 * Value(s[..|s| - 1]) + DigitValue(s[|s| - 1])
  }

  /** `n` written in exactly `width` decimal digits, zero-padded on the left;
      the digits above `width` are dropped. */
  function Pad(n: nat, width: nat): (s: string)
    ensures |s| == width && AllDigits(s)
    ensures Value(s) == n % Pow10(width)
  {
    if width == 0 then ""
    else
      var init := Pad(n / 10, width - 1);
      var s := init + [DigitChar(n % 10)];
      assert s[..|s| - 1] == init;
      ModStep(n, Pow10(width - 1));
      s
  }

  /** `n` in decimal with no leading zeros, as Python's `str(n)`. */
  function Decimal(n: nat): (s: string)
    ensures 1 <= |s| && AllDigits(s) && Value(s) == n
    ensures |s| > 1 ==> s[0] != '0'
  {
    if n < 10 then [DigitChar(n)]
    else
      var init := Decimal(n / 10);
      var s := init + [DigitChar(n % 10)];
      assert s[..|s| - 1] == init;
      s
  }

  /** Padding a digit string to its own width gives it back. */
  lemma {:induction false} PadOfValue(s: string)
    requires AllDigits(s)
    ensures Pad(Value(s), |s|) == s
  {
    if |s| > 0 {
      var init := s[..|s| - 1];
      var last := s[|s| - 1];
      var n := Value(s);
      assert n == 10 * Value(init) + DigitValue(last);
      assert n / 10 == Value(init) && n % 10 == DigitValue(last);
      PadOfValue(init);
      CharOfValue(last);
      assert s == init + [last];
    }
  }

  /** A number that fits in `width` digits is read back from its padding. */
  lemma ValueOfPad(n: nat, width: nat)
    requires n < Pow10(width)
    ensures Value(Pad(n, width)) == n
  {
  }

  /** Distinct naturals have distinct decimal strings. */
  lemma DecimalInjective(a: nat, b: nat)
    requires Decimal(a) == Decimal(b)
    ensures a == b
  {
  }

  lemma ModUnique(n: int, m: int, q: int, r: int)
    requires m > 0 && n == q * m + r && 0 <= r < m
    ensures n % m == r
  {
    var q' := n / m;
    var r' := n % m;
    assert n == q' * m + r';
    assert (q - q') * m == r' - r;
    MulBounds(q - q', m);
  }

  lemma MulBounds(k: int, m: int)
    requires m > 0
    ensures k >= 1 ==> k * m >= m
    ensures k <= -1 ==> k * m <= -m
  {
  }

  lemma ModStep(n: nat, p: nat)
    requires p >= 1
    ensures n % (10 * p) == 10 * ((n / 10) % p) + n % 10
  {
    var q := n / 10;
    var a := q / p;
    var b := q % p;
    assert q == a * p + b;
    assert n == a * (10 * p) + (10 * b + n % 10);
    ModUnique(n, 10 * p, a, 10 * b + n % 10);
  }
}

=== FILE: faults.dfy ===
/** The exceptions a transformation handler can raise. None of them is caught:
    each one ends the whole invocation and no batch is returned. */
module Faults {

  datatype Fault =
      /** `base64.b64decode`, `.decode('utf-8')` or `json.loads` raised. */
    | Undecodable
      /** TypeError: a value that is not a dict was subscripted with a str key. */
    | NotSubscriptable(key: string)
      /** KeyError: a dict has no member with this key. */
    | MissingKey(key: string)
      /** AttributeError: `.rstrip` was called on a value that is not a str. */
    | NotAString(key: string)
      /** A text outside the accepted `YYYY-MM-DDTHH:MM:SS` form (the ValueError
          of `datetime.fromisoformat`, for texts of this form). */
    | InvalidIsoFormat(text: string)
      /** TypeError: `enumerate` was given a value that is not iterable. */
    | NotIterable(key: string)
}

=== FILE: firehose.dfy ===
/** What the three transformation handlers share: the Firehose record shapes,
    the opaque base64/JSON codec, the `order_date` partition keys, and the
    record loop that appends every output in order and lets the first
    exception end the invocation. */
module Firehose {
  import opened Wrappers
  import opened Faults
  import opened Json
  import opened Digits
  import opened Timestamp

  /** The `result` of an outbound record. The handlers only ever write `Ok`. */
  datatype RecordResult = Ok | ProcessingFailed

  /** One entry of `event['records']`: `data` is base64 text. */
  datatype InboundRecord = InboundRecord(recordId: string, data: string)

  type PartitionKeys = map<string, Json>

  /** One entry of the returned `records`; `partitionKeys` is `metadata.partitionKeys`. */
  datatype OutboundRecord = OutboundRecord(recordId: string, result: RecordResult, data: string, partitionKeys: PartitionKeys)

  /** The serialisation the handlers call but do not implement.
      `decode` is `json.loads(base64.b64decode(data).decode('utf-8'))`, None when any
      of the three raises; `encode` is `base64.b64encode(json.dumps(v).encode('utf-8')).decode('utf-8')`. */
  datatype Codec = Codec(decode: string -> Option<Json>, encode: Json -> string)

  /** A codec under which every encoded value decodes back to itself. */
  ghost predicate Lossless(codec: Codec) {
    forall v :: codec.decode(codec.encode(v)) == Some(v)
  }

  function DecodePayload(codec: Codec, rec: InboundRecord): (r: Result<Json, Fault>)
    ensures r.Success? <==> codec.decode(rec.data).Some?
    ensures r.Success? ==> r.value == codec.decode(rec.data).value
    ensures r.Failure? ==> r.error == Undecodable
  {
    match codec.decode(rec.data)
    case Some(v) => Success(v)
    case None => Failure(Undecodable)
  }

  /** `datetime.datetime.fromisoformat(json_payload['order_date'].rstrip("Z"))`. */
  function OrderTimestamp(payload: Json): (r: Result<DateTime, Fault>)
    ensures r.Success? <==>
      && Get(payload, "order_date").Success?
      && Get(payload, "order_date").value.JString?
      && ParseOrderDate(Get(payload, "order_date").value.s).Some?
    ensures r.Success? ==> ParseOrderDate(Get(payload, "order_date").value.s) == Some(r.value)
    ensures r.Success? ==>
      Valid(r.value) && IsoFormat(r.value) == RStrip(Get(payload, "order_date").value.s, 'Z')
  {
    var text :- Get(payload, "order_date");
    if !text.JString? then Failure(NotAString("order_date"))
    else
      match ParseOrderDate(text.s)
      case Some(d) => Success(d)
      case None => Failure(InvalidIsoFormat(RStrip(text.s, 'Z')))
  }

  /** Trailing `Z`s on `order_date` change neither the timestamp nor the error. */
  lemma OrderTimestampTrailingZ(p1: Json, p2: Json, text: string, k: nat)
    requires Get(p1, "order_date") == Success(JString(text))
    requires Get(p2, "order_date") == Success(JString(text + Repeat('Z', k)))
    ensures OrderTimestamp(p1) == OrderTimestamp(p2)
  {
    RStripAppended(text, 'Z', k);
  }

  /** The four calendar partition keys: `%Y`, `%m`, `%d` and `%H`. */
  function CalendarKeys(d: DateTime): (keys: PartitionKeys)
    requires Valid(d)
    ensures keys.Keys == {"year", "month", "day", "hour"}
    ensures forall k :: k in keys ==> keys[k].JString? && AllDigits(keys[k].s)
    ensures |keys["year"].s| == 4 && Value(keys["year"].s) == d.year
    ensures |keys["month"].s| == 2 && Value(keys["month"].s) == d.month
    ensures |keys["day"].s| == 2 && Value(keys["day"].s) == d.day
    ensures |keys["hour"].s| == 2 && Value(keys["hour"].s) == d.hour
  {
    ValueOfPad(d.year, 4);
    ValueOfPad(d.month, 2);
    ValueOfPad(d.day, 2);
    ValueOfPad(d.hour, 2);
    map["year" := JString(Year(d)), "month" := JString(Month(d)),
        "day" := JString(Day(d)), "hour" := JString(Hour(d))]
  }

  /** A handler's `partition_keys`: one payload value under `name` next to the
      four calendar keys, which it leaves unchanged unless `name` is one of them. */
  function KeysWith(d: DateTime, name: string, v: Json): (keys: PartitionKeys)
    requires Valid(d)
    ensures keys.Keys == CalendarKeys(d).Keys + {name}
    ensures keys[name] == v
    ensures forall k :: k in CalendarKeys(d) && k != name ==> keys[k] == CalendarKeys(d)[k]
  {
    CalendarKeys(d)[name := v]
  }

  /** The calendar keys are the digits of the `Z`-stripped `order_date`, verbatim. */
  lemma CalendarKeysOfText(text: string, d: DateTime)
    requires ParseOrderDate(text) == Some(d)
    ensures var s := RStrip(text, 'Z');
      && Valid(d) && |s| == 19
      && CalendarKeys(d) == map["year" := JString(s[0..4]), "month" := JString(s[5..7]),
                                "day" := JString(s[8..10]), "hour" := JString(s[11..13])]
  {
    CalendarFieldsOfText(text, d);
  }

  /** The record loop of a handler: `step` transforms one record, every output
      is appended in record order, and the first exception aborts the batch. */
  function RunBatch(records: seq<InboundRecord>, step: InboundRecord -> Result<seq<OutboundRecord>, Fault>): (r: Result<seq<OutboundRecord>, Fault>)
    ensures r.Success? <==> forall i :: 0 <= i < |records| ==> step(records[i]).Success?
    ensures r.Failure? ==>
      exists k :: 0 <= k < |records| && step(records[k]) == Failure(r.error)
                  && forall j :: 0 <= j < k ==> step(records[j]).Success?
  {
    if |records| == 0 then Success([])
    else
      var init := records[..|records| - 1];
      assert forall i :: 0 <= i < |init| ==> init[i] == records[i];
      var done :- RunBatch(init, step);
      var last :- step(records[|records| - 1]);
      Success(done + last)
  }

  /** How many outputs the records yield, a record that raises counting none. */
  function Produced(records: seq<InboundRecord>, step: InboundRecord -> Result<seq<OutboundRecord>, Fault>): (n: nat) {
    if |records| == 0 then 0
    else
      var last := step(records[|records| - 1]);
      Produced(records[..|records| - 1], step) + (if last.Success? then |last.value| else 0)
  }

  /** The sum of a per-record count over the records. */
  function Total(records: seq<InboundRecord>, count: InboundRecord -> nat): (n: nat) {
    if |records| == 0 then 0
    else Total(records[..|records| - 1], count) + count(records[|records| - 1])
  }

  /** Records that all succeed, each with `count` outputs, produce the sum of the counts. */
  lemma {:induction false} ProducedIsTotal(records: seq<InboundRecord>, step: InboundRecord -> Result<seq<OutboundRecord>, Fault>,
                                           count: InboundRecord -> nat)
    requires forall i :: 0 <= i < |records| ==> step(records[i]).Success? && |step(records[i]).value| == count(records[i])
    ensures Produced(records, step) == Total(records, count)
  {
    if |records| > 0 {
      var init := records[..|records| - 1];
      assert forall i :: 0 <= i < |init| ==> init[i] == records[i];
      ProducedIsTotal(init, step, count);
    }
  }

  /** The total is zero exactly when every record counts zero. */
  lemma {:induction false} TotalZero(records: seq<InboundRecord>, count: InboundRecord -> nat)
    ensures Total(records, count) == 0 <==> forall i :: 0 <= i < |records| ==> count(records[i]) == 0
  {
    if |records| > 0 {
      var init := records[..|records| - 1];
      assert forall i :: 0 <= i < |init| ==> init[i] == records[i];
      TotalZero(init, count);
    }
  }

  /** A successful batch is the previous records' outputs followed by the last record's. */
  lemma RunBatchSnoc(records: seq<InboundRecord>, step: InboundRecord -> Result<seq<OutboundRecord>, Fault>)
    requires |records| > 0 && RunBatch(records, step).Success?
    ensures var n := |records| - 1;
      && RunBatch(records[..n], step).Success? && step(records[n]).Success?
      && RunBatch(records, step).value == RunBatch(records[..n], step).value + step(records[n]).value
  {
  }

  /** The batch holds every output of every record and nothing else. */
  lemma {:induction false} RunBatchLength(records: seq<InboundRecord>, step: InboundRecord -> Result<seq<OutboundRecord>, Fault>)
    requires RunBatch(records, step).Success?
    ensures |RunBatch(records, step).value| == Produced(records, step)
  {
    if |records| > 0 {
      RunBatchSnoc(records, step);
      RunBatchLength(records[..|records| - 1], step);
    }
  }

  /** Output `j` of record `k` comes after the outputs of every earlier record. */
  lemma {:induction false} RunBatchPosition(records: seq<InboundRecord>, step: InboundRecord -> Result<seq<OutboundRecord>, Fault>, k: nat, j: nat)
    requires RunBatch(records, step).Success?
    requires k < |records| && step(records[k]).Success? && j < |step(records[k]).value|
    ensures Produced(records[..k], step) + j < |RunBatch(records, step).value|
    ensures RunBatch(records, step).value[Produced(records[..k], step) + j] == step(records[k]).value[j]
  {
    var n := |records| - 1;
    var init := records[..n];
    RunBatchSnoc(records, step);
    RunBatchLength(init, step);
    if k < n {
      assert init[..k] == records[..k];
      assert init[k] == records[k];
      RunBatchPosition(init, step, k, j);
    } else {
      assert init == records[..k];
    }
  }

  /** Every output is output `j` of some record `k`. */
  lemma {:induction false} RunBatchOrigin(records: seq<InboundRecord>, step: InboundRecord -> Result<seq<OutboundRecord>, Fault>, p: nat) returns (k: nat, j: nat)
    requires RunBatch(records, step).Success? && p < |RunBatch(records, step).value|
    ensures k < |records| && step(records[k]).Success? && j < |step(records[k]).value|
    ensures RunBatch(records, step).value[p] == step(records[k]).value[j]
    ensures p == Produced(records[..k], step) + j
  {
    var n := |records| - 1;
    var init := records[..n];
    RunBatchSnoc(records, step);
    RunBatchLength(init, step);
    if p < |RunBatch(init, step).value| {
      k, j := RunBatchOrigin(init, step, p);
      assert init[..k] == records[..k];
      assert init[k] == records[k];
    } else {
      k, j := n, p - |RunBatch(init, step).value|;
      assert init == records[..k];
    }
  }

  /** Running a batch in two parts is running it whole. */
  lemma {:induction false} RunBatchAppend(a: seq<InboundRecord>, b: seq<InboundRecord>, step: InboundRecord -> Result<seq<OutboundRecord>, Fault>)
    ensures RunBatch(a + b, step) ==
      match RunBatch(a, step)
      case Failure(e) => Failure(e)
      case Success(x) =>
        match RunBatch(b, step)
        case Failure(e) => Failure(e)
        case Success(y) => Success(x + y)
    decreases |b|
  {
    if |b| == 0 {
      assert a + b == a;
      assert RunBatch(b, step) == Success([]);
      if RunBatch(a, step).Success? {
        assert RunBatch(a, step).value + [] == RunBatch(a, step).value;
      }
    } else {
      var b' := b[..|b| - 1];
      var last := b[|b| - 1];
      assert (a + b)[..|a + b| - 1] == a + b';
      assert (a + b)[|a + b| - 1] == last;
      RunBatchAppend(a, b', step);
      if RunBatch(a, step).Success? && RunBatch(b', step).Success? && step(last).Success? {
        var x, y, l := RunBatch(a, step).value, RunBatch(b', step).value, step(last).value;
        assert RunBatch(a + b, step).value == (x + y) + l;
        assert RunBatch(b, step).value == y + l;
        assert (x + y) + l == x + (y + l);
      }
    }
  }

  /** A batch fails as soon as one of its prefixes fails. */
  lemma RunBatchPrefixFails(records: seq<InboundRecord>, k: nat, step: InboundRecord -> Result<seq<OutboundRecord>, Fault>)
    requires k <= |records| && RunBatch(records[..k], step).Failure?
    ensures RunBatch(records, step) == RunBatch(records[..k], step)
  {
    assert records == records[..k] + records[k..];
    RunBatchAppend(records[..k], records[k..], step);
  }

  /** A step that always yields exactly one record keeps the batch one-to-one. */
  lemma {:induction false} RunBatchOneToOne(records: seq<InboundRecord>, step: InboundRecord -> Result<seq<OutboundRecord>, Fault>)
    requires forall i :: 0 <= i < |records| && step(records[i]).Success? ==> |step(records[i]).value| == 1
    ensures RunBatch(records, step).Success? ==>
      && |RunBatch(records, step).value| == |records|
      && forall i :: 0 <= i < |records| ==> RunBatch(records, step).value[i] == step(records[i]).value[0]
  {
    if |records| > 0 && RunBatch(records, step).Success? {
      var init := records[..|records| - 1];
      assert forall i :: 0 <= i < |init| ==> init[i] == records[i];
      RunBatchOneToOne(init, step);
    }
  }
}

=== FILE: json.dfy ===
/** Decoded JSON values, as `json.loads` returns them, and Python's
    `value[key]` subscript on them. Object members keep their text order, so a
    projection built in the handlers' dict-literal order is encoded in that order. */
module Json {
  import opened Wrappers
  import opened Faults

  datatype Json =
    | JNull
    | JBool(b: bool)
    | JInt(i: int)
    | JString(s: string)
    | JArray(items: seq<Json>)
    | JObject(members: seq<(string, Json)>)

  /** The value of the LAST member named `key`: `json.loads` lets a later
      duplicate overwrite an earlier one. */
  function Find(members: seq<(string, Json)>, key: string): (r: Option<Json>)
    ensures r.None? <==> forall i :: 0 <= i < |members| ==> members[i].0 != key
    ensures r.Some? ==> exists i :: 0 <= i < |members| && members[i] == (key, r.value)
                                    && forall j :: i < j < |members| ==> members[j].0 != key
  {
    if |members| == 0 then None
    else if members[|members| - 1].0 == key then Some(members[|members| - 1].1)
    else
      var r := Find(members[..|members| - 1], key);
      assert forall i :: 0 <= i < |members| - 1 ==> members[..|members| - 1][i] == members[i];
      r
  }

  /** `value[key]`: a KeyError when a dict lacks the key, a TypeError when the
      value is not a dict at all. */
  function Get(value: Json, key: string): (r: Result<Json, Fault>) {
    match value
    case JObject(members) =>
      (match Find(members, key)
       case Some(v) => Success(v)
       case None => Failure(MissingKey(key)))
    case _ => Failure(NotSubscriptable(key))
  }

  function Names(members: seq<(string, Json)>): (names: set<string>) {
    set i | 0 <= i < |members| :: members[i].0
  }

  predicate DistinctNames(members: seq<(string, Json)>) {
    forall i, j :: 0 <= i < j < |members| ==> members[i].0 != members[j].0
  }

  /** A member whose name no later member repeats is found under that name. */
  lemma GetMember(members: seq<(string, Json)>, i: nat)
    requires i < |members|
    requires forall j :: i < j < |members| ==> members[j].0 != members[i].0
    ensures Get(JObject(members), members[i].0) == Success(members[i].1)
  {
  }

  /** In an object whose names are distinct, every member is found under its name. */
  lemma ObjectLookups(members: seq<(string, Json)>)
    requires DistinctNames(members)
    ensures forall i :: 0 <= i < |members| ==> Get(JObject(members), members[i].0) == Success(members[i].1)
  {
    forall i | 0 <= i < |members|
      ensures Get(JObject(members), members[i].0) == Success(members[i].1)
    {
      GetMember(members, i);
    }
  }

  /** A name that no member carries is a KeyError. */
  lemma GetAbsent(members: seq<(string, Json)>, key: string)
    requires key !in Names(members)
    ensures Get(JObject(members), key) == Failure(MissingKey(key))
  {
    assert forall i :: 0 <= i < |members| ==> members[i].0 in Names(members);
  }

  /** What `value[key]` does: a TypeError on anything but a dict; on a dict, the
      value of a member with that name, or a KeyError when there is none. */
  lemma GetOutcome(value: Json, key: string)
    ensures !value.JObject? ==> Get(value, key) == Failure(NotSubscriptable(key))
    ensures value.JObject? ==> (Get(value, key).Success? <==> key in Names(value.members))
    ensures value.JObject? && Get(value, key).Failure? ==> Get(value, key).error == MissingKey(key)
    ensures Get(value, key).Success? ==> (key, Get(value, key).value) in value.members
  {
    if value.JObject? {
      var members := value.members;
      if Get(value, key).Success? {
        var i :| 0 <= i < |members| && members[i] == (key, Get(value, key).value);
        assert members[i].0 in Names(members);
      } else {
        assert forall i :: 0 <= i < |members| ==> members[i].0 != key;
      }
    }
  }
}

=== FILE: orders.dfy ===
/** lambda_orders_transformation: one order-summary record per input record,
    partitioned by customer and by the hour of the order. */
module OrdersTransformation {
  import opened Wrappers
  import opened Faults
  import opened Json
  import opened Timestamp
  import opened Firehose

  /** The `data` dict of an output record, before encoding. */
  datatype OrderSummary = OrderSummary(customerId: Json, orderId: Json, orderDate: string, status: Json)

  /** The summary as the JSON object `json.dumps` receives, members in dict-literal order. */
  function SummaryJson(o: OrderSummary): (j: Json)
    ensures j.JObject? && DistinctNames(j.members)
    ensures Names(j.members) == {"customer_id", "order_id", "order_date", "status"}
    ensures Get(j, "customer_id") == Success(o.customerId)
    ensures Get(j, "order_id") == Success(o.orderId)
    ensures Get(j, "order_date") == Success(JString(o.orderDate))
    ensures Get(j, "status") == Success(o.status)
  {
    var members := [("customer_id", o.customerId), ("order_id", o.orderId),
                    ("order_date", JString(o.orderDate)), ("status", o.status)];
    assert DistinctNames(members);
    ObjectLookups(members);
    assert Names(members) == {members[0].0, members[1].0, members[2].0, members[3].0};
    JObject(members)
  }

  /** The summary and partition keys of one decoded payload; the lookups happen
      in the order of lines 24, 25, 37 and 39. */
  function Summarize(payload: Json): (r: Result<(OrderSummary, PartitionKeys), Fault>)
    ensures r.Success? <==>
      && OrderTimestamp(payload).Success?
      && Get(payload, "customer_id").Success?
      && Get(payload, "order_id").Success?
      && Get(payload, "status").Success?
    ensures r.Success? ==>
      var d := OrderTimestamp(payload).value;
      var customerId := Get(payload, "customer_id").value;
      && r.value.0 == OrderSummary(customerId, Get(payload, "order_id").value, IsoDate(d), Get(payload, "status").value)
      && r.value.1 == KeysWith(d, "customer_id", customerId)
  {
    var d :- OrderTimestamp(payload);
    var customerId :- Get(payload, "customer_id");
    var keys := KeysWith(d, "customer_id", customerId);
    var orderId :- Get(payload, "order_id");
    var status :- Get(payload, "status");
    Success((OrderSummary(customerId, orderId, IsoDate(d), status), keys))
  }

  /** The partition keys are exactly the customer and the calendar fields; the
      customer key is the summary's `customer_id`; the summary's `order_date` is
      the year, month and day keys joined by `-`, which is the `Z`-stripped
      `order_date` cut to its date: the hour is kept in the keys only. */
  lemma SummaryAgreesWithKeys(payload: Json)
    requires Summarize(payload).Success?
    ensures var (summary, keys) := Summarize(payload).value;
      var text := Get(payload, "order_date").value.s;
      && keys.Keys == {"customer_id", "year", "month", "day", "hour"}
      && keys["customer_id"] == summary.customerId
      && keys["year"].JString? && keys["month"].JString? && keys["day"].JString? && keys["hour"].JString?
      && summary.orderDate == keys["year"].s + "-" + keys["month"].s + "-" + keys["day"].s
      && |summary.orderDate| == 10
      && summary.orderDate == RStrip(text, 'Z')[..10]
  {
    var d := OrderTimestamp(payload).value;
    CalendarFieldsOfText(Get(payload, "order_date").value.s, d);
  }

  /** One input record to its single output record. */
  function TransformRecord(codec: Codec, rec: InboundRecord): (r: Result<seq<OutboundRecord>, Fault>)
    ensures r.Success? <==> DecodePayload(codec, rec).Success? && Summarize(DecodePayload(codec, rec).value).Success?
    ensures r.Success? ==>
      && |r.value| == 1
      && r.value[0].recordId == rec.recordId
      && r.value[0].result == Ok
      && r.value[0].partitionKeys == Summarize(DecodePayload(codec, rec).value).value.1
  {
    var payload :- DecodePayload(codec, rec);
    var projection :- Summarize(payload);
    Success([OutboundRecord(rec.recordId, Ok, codec.encode(SummaryJson(projection.0)), projection.1)])
  }

  /** `lambda_handler`: every record yields exactly one output, in input order,
      under its own record id; any record that raises fails the whole batch. */
  function LambdaHandler(codec: Codec, records: seq<InboundRecord>): (r: Result<seq<OutboundRecord>, Fault>)
    ensures r.Success? <==>
      forall i :: 0 <= i < |records| ==>
        DecodePayload(codec, records[i]).Success? && Summarize(DecodePayload(codec, records[i]).value).Success?
    ensures r.Success? ==>
      && |r.value| == |records|
      && forall i :: 0 <= i < |records| ==>
           var (summary, keys) := Summarize(DecodePayload(codec, records[i]).value).value;
           r.value[i] == OutboundRecord(records[i].recordId, Ok, codec.encode(SummaryJson(summary)), keys)
  {
    var step := rec => TransformRecord(codec, rec);
    RunBatchOneToOne(records, step);
    RunBatch(records, step)
  }

  /** The order summary ignores trailing `Z`s on `order_date`: two payloads that
      agree on every other key summarise alike. */
  lemma TrailingZIrrelevant(p1: Json, p2: Json, text: string, k: nat)
    requires Get(p1, "order_date") == Success(JString(text))
    requires Get(p2, "order_date") == Success(JString(text + Repeat('Z', k)))
    requires forall key :: key != "order_date" ==> Get(p1, key) == Get(p2, key)
    ensures Summarize(p1) == Summarize(p2)
  {
    OrderTimestampTrailingZ(p1, p2, text, k);
    AgreeOnSummaryKeys(p1, p2);
    SummarizeCongruent(p1, p2);
  }

  lemma AgreeOnSummaryKeys(p1: Json, p2: Json)
    requires forall key :: key != "order_date" ==> Get(p1, key) == Get(p2, key)
    ensures Get(p1, "customer_id") == Get(p2, "customer_id")
    ensures Get(p1, "order_id") == Get(p2, "order_id")
    ensures Get(p1, "status") == Get(p2, "status")
  {
    assert "customer_id" != "order_date" && "order_id" != "order_date" && "status" != "order_date";
  }

  lemma SummarizeCongruent(p1: Json, p2: Json)
    requires OrderTimestamp(p1) == OrderTimestamp(p2)
    requires Get(p1, "customer_id") == Get(p2, "customer_id")
    requires Get(p1, "order_id") == Get(p2, "order_id")
    requires Get(p1, "status") == Get(p2, "status")
    ensures Summarize(p1) == Summarize(p2)
  {
  }

  /** Under a lossless codec the `data` of output `i` decodes to an object
      carrying the payload's customer, order and status and the truncated date. */
  lemma OutputDecodes(codec: Codec, records: seq<InboundRecord>, i: nat)
    requires Lossless(codec)
    requires LambdaHandler(codec, records).Success? && i < |records|
    ensures var payload := DecodePayload(codec, records[i]).value;
      && codec.decode(LambdaHandler(codec, records).value[i].data).Some?
      && var data := codec.decode(LambdaHandler(codec, records).value[i].data).value;
      && Get(data, "customer_id") == Get(payload, "customer_id")
      && Get(data, "order_id") == Get(payload, "order_id")
      && Get(data, "status") == Get(payload, "status")
      && Get(data, "order_date") == Success(JString(RStrip(Get(payload, "order_date").value.s, 'Z')[..10]))
  {
    var payload := DecodePayload(codec, records[i]).value;
    var summary := Summarize(payload).value.0;
    SummaryAgreesWithKeys(payload);
    assert codec.decode(codec.encode(SummaryJson(summary))) == Some(SummaryJson(summary));
  }
}

=== FILE: products.dfy ===
/** lambda_product_details_tranformation: one line-item record per product of
    each input record, partitioned by the hour of the order. The first line item
    keeps the input record id; the item at `enumerate` index i > 0 gets
    `recordId_i`. */
module ProductDetailsTransformation {
  import opened Wrappers
  import opened Faults
  import opened Json
  import opened Digits
  import opened Timestamp
  import opened Firehose

  /** The `data` dict of an output record, before encoding. */
  datatype LineItem = LineItem(productId: Json, orderId: Json, name: Json, quantity: Json, color: Json, size: Json)

  /** The line item as the JSON object `json.dumps` receives, members in dict-literal order. */
  function ItemJson(li: LineItem): (j: Json)
    ensures j.JObject? && DistinctNames(j.members)
    ensures Names(j.members) == {"product_id", "order_id", "name", "quantity", "color", "size"}
    ensures Get(j, "product_id") == Success(li.productId)
    ensures Get(j, "order_id") == Success(li.orderId)
    ensures Get(j, "name") == Success(li.name)
    ensures Get(j, "quantity") == Success(li.quantity)
    ensures Get(j, "color") == Success(li.color)
    ensures Get(j, "size") == Success(li.size)
  {
    var members := [("product_id", li.productId), ("order_id", li.orderId), ("name", li.name),
                    ("quantity", li.quantity), ("color", li.color), ("size", li.size)];
    assert DistinctNames(members);
    ObjectLookups(members);
    assert Names(members) == {members[0].0, members[1].0, members[2].0, members[3].0, members[4].0, members[5].0};
    JObject(members)
  }

  /** `product_detail['item_details'][field]`. */
  function DetailField(product: Json, field: string): (r: Result<Json, Fault>)
    ensures r.Success? <==>
      && Get(product, "item_details").Success?
      && Get(Get(product, "item_details").value, field).Success?
    ensures r.Failure? ==>
      r.error in {NotSubscriptable("item_details"), MissingKey("item_details"),
                  NotSubscriptable(field), MissingKey(field)}
    ensures r.Success? ==> r.value == Get(Get(product, "item_details").value, field).value
  {
    var details :- Get(product, "item_details");
    Get(details, field)
  }

  /** The line item of one product; the lookups happen in the order of lines 37 to 42. */
  function ProjectProduct(payload: Json, product: Json): (r: Result<LineItem, Fault>)
    ensures r.Success? <==>
      && Get(product, "product_id").Success?
      && Get(payload, "order_id").Success?
      && Get(product, "name").Success?
      && Get(product, "quantity").Success?
      && DetailField(product, "color").Success?
      && DetailField(product, "size").Success?
    ensures r.Success? ==>
      && r.value.productId == Get(product, "product_id").value
      && r.value.orderId == Get(payload, "order_id").value
      && r.value.name == Get(product, "name").value
      && r.value.quantity == Get(product, "quantity").value
      && r.value.color == DetailField(product, "color").value
      && r.value.size == DetailField(product, "size").value
  {
    var productId :- Get(product, "product_id");
    var orderId :- Get(payload, "order_id");
    var name :- Get(product, "name");
    var quantity :- Get(product, "quantity");
    var color :- DetailField(product, "color");
    var size :- DetailField(product, "size");
    Success(LineItem(productId, orderId, name, quantity, color, size))
  }

  function ProductStep(payload: Json): (step: Json -> Result<LineItem, Fault>) {
    product => ProjectProduct(payload, product)
  }

  /** The line items of all products in order; the first product that raises
      decides the error. */
  function ProjectProducts(payload: Json, products: seq<Json>): (r: Result<seq<LineItem>, Fault>)
    ensures r.Success? <==> forall i :: 0 <= i < |products| ==> ProjectProduct(payload, products[i]).Success?
    ensures r.Success? ==>
      && |r.value| == |products|
      && forall i :: 0 <= i < |products| ==> r.value[i] == ProjectProduct(payload, products[i]).value
  {
    Traverse(products, ProductStep(payload))
  }

  /** What `enumerate(json_payload['product_details'])` walks over. A list gives
      its elements. A str or a dict gives str values, and subscripting a str
      with 'product_id' raises TypeError, so those get through only when empty.
      Numbers, booleans and null are not iterable. */
  function ProductList(payload: Json): (r: Result<seq<Json>, Fault>)
    ensures r.Success? <==>
      && Get(payload, "product_details").Success?
      && var details := Get(payload, "product_details").value;
         details.JArray? || (details.JString? && |details.s| == 0) || (details.JObject? && |details.members| == 0)
    ensures r.Success? ==>
      r.value == (if Get(payload, "product_details").value.JArray? then Get(payload, "product_details").value.items else [])
  {
    var details :- Get(payload, "product_details");
    match details
    case JArray(items) => Success(items)
    case JString(s) => if |s| == 0 then Success([]) else Failure(NotSubscriptable("product_id"))
    case JObject(members) => if |members| == 0 then Success([]) else Failure(NotSubscriptable("product_id"))
    case _ => Failure(NotIterable("product_details"))
  }

  /** The output record id of the product at `enumerate` index `index`:
      the input id itself for the first product, `recordId_index` after it. */
  function AllocateId(recordId: string, index: nat): (id: string)
    ensures index == 0 ==> id == recordId
    ensures index > 0 ==>
      && |id| > |recordId| + 1
      && id[..|recordId|] == recordId
      && id[|recordId|] == '_'
      && AllDigits(id[|recordId| + 1..]) && Value(id[|recordId| + 1..]) == index
      && (|id| > |recordId| + 2 ==> id[|recordId| + 1] != '0')
  {
    if index == 0 then recordId
    else
      var id := recordId + "_" + Decimal(index);
      assert id[|recordId| + 1..] == Decimal(index);
      id
  }

  /** The ids given to the products of one record are pairwise distinct. */
  lemma AllocatedIdsDistinct(recordId: string, i: nat, j: nat)
    requires i != j
    ensures AllocateId(recordId, i) != AllocateId(recordId, j)
  {
    var a, b := AllocateId(recordId, i), AllocateId(recordId, j);
    if i == 0 || j == 0 {
      assert |a| != |b|;
    } else {
      assert a[|recordId| + 1..] != b[|recordId| + 1..];
    }
  }

  /** The ids given to the first `n` products of one record are pairwise distinct. */
  lemma AllocatedIdsPairwiseDistinct(recordId: string, n: nat)
    ensures forall i, j :: 0 <= i < j < n ==> AllocateId(recordId, i) != AllocateId(recordId, j)
  {
    forall i, j | 0 <= i < j < n
      ensures AllocateId(recordId, i) != AllocateId(recordId, j)
    {
      AllocatedIdsDistinct(recordId, i, j);
    }
  }

  /** The text before the first `_`, all of it when there is none. */
  function BeforeUnderscore(s: string): (prefix: string) {
    if |s| == 0 || s[0] == '_' then [] else [s[0]] + BeforeUnderscore(s[1..])
  }

  lemma {:induction false} BeforeUnderscoreAppend(a: string, t: string)
    requires '_' !in a
    requires |t| == 0 || t[0] == '_'
    ensures BeforeUnderscore(a + t) == a
  {
    if |a| == 0 {
      assert a + t == t;
    } else {
      assert (a + t)[1..] == a[1..] + t;
      assert a[0] in a;
      BeforeUnderscoreAppend(a[1..], t);
    }
  }

  /** With record ids free of `_`, an allocated id determines both the input
      record id and the product index. */
  lemma AllocateIdInjective(a: string, i: nat, b: string, j: nat)
    requires '_' !in a && '_' !in b
    requires AllocateId(a, i) == AllocateId(b, j)
    ensures a == b && i == j
  {
    BeforeUnderscoreAppend(a, if i == 0 then "" else "_" + Decimal(i));
    BeforeUnderscoreAppend(b, if j == 0 then "" else "_" + Decimal(j));
    assert a + "" == a && b + "" == b;
    if i != j {
      AllocatedIdsDistinct(a, i, j);
    }
  }

  /** Two different input records can be given the same output id: the second
      product of record `a` and the first product of record `a_1`. */
  lemma CrossRecordIdsCollide()
    ensures AllocateId("a", 1) == AllocateId("a_1", 0) == "a_1"
  {
    assert Decimal(1) == "1";
  }

  /** A record with an empty `product_details` yields no outputs and raises no
      lookup error: `order_id` is only read inside the product loop. */
  lemma EmptyProductDetails(codec: Codec, rec: InboundRecord)
    requires DecodePayload(codec, rec).Success?
    requires OrderTimestamp(DecodePayload(codec, rec).value).Success?
    requires ProductList(DecodePayload(codec, rec).value) == Success([])
    ensures TransformRecord(codec, rec) == Success([])
  {
  }

  /** The outputs of one record: line item `i` under id `AllocateId(recordId, i)`,
      all with `result` `Ok` and the record's one partition-key map. */
  function Emit(codec: Codec, recordId: string, items: seq<LineItem>, keys: PartitionKeys): (outs: seq<OutboundRecord>)
    ensures |outs| == |items|
  {
    seq(|items|, i requires 0 <= i < |items| =>
      OutboundRecord(AllocateId(recordId, i), Ok, codec.encode(ItemJson(items[i])), keys))
  }

  /** Every output of a record is `Ok` under the record's keys, the first keeps
      the input record id, and no two share an id. */
  lemma EmitOutputs(codec: Codec, recordId: string, items: seq<LineItem>, keys: PartitionKeys)
    ensures var outs := Emit(codec, recordId, items, keys);
      && (forall i :: 0 <= i < |outs| ==> outs[i].result == Ok && outs[i].partitionKeys == keys)
      && (|outs| > 0 ==> outs[0].recordId == recordId)
      && (forall i, j :: 0 <= i < j < |outs| ==> outs[i].recordId != outs[j].recordId)
  {
    var outs := Emit(codec, recordId, items, keys);
    assert forall i :: 0 <= i < |outs| ==> outs[i].recordId == AllocateId(recordId, i);
    AllocatedIdsPairwiseDistinct(recordId, |items|);
  }

  lemma EmitSnoc(codec: Codec, recordId: string, items: seq<LineItem>, item: LineItem, keys: PartitionKeys)
    ensures Emit(codec, recordId, items + [item], keys) ==
      Emit(codec, recordId, items, keys) + [OutboundRecord(AllocateId(recordId, |items|), Ok, codec.encode(ItemJson(item)), keys)]
  {
  }

  /** The payload steps of one record before any output is built. */
  function Prepare(codec: Codec, rec: InboundRecord): (r: Result<(PartitionKeys, seq<LineItem>), Fault>)
    ensures r.Success? <==>
      && DecodePayload(codec, rec).Success?
      && OrderTimestamp(DecodePayload(codec, rec).value).Success?
      && ProductList(DecodePayload(codec, rec).value).Success?
      && ProjectProducts(DecodePayload(codec, rec).value, ProductList(DecodePayload(codec, rec).value).value).Success?
    ensures r.Success? ==>
      var payload := DecodePayload(codec, rec).value;
      && r.value.0 == CalendarKeys(OrderTimestamp(payload).value)
      && r.value.1 == ProjectProducts(payload, ProductList(payload).value).value
  {
    var payload :- DecodePayload(codec, rec);
    var d :- OrderTimestamp(payload);
    var products :- ProductList(payload);
    var items :- ProjectProducts(payload, products);
    Success((CalendarKeys(d), items))
  }

  /** One input record to its line-item records, one per product. */
  function TransformRecord(codec: Codec, rec: InboundRecord): (r: Result<seq<OutboundRecord>, Fault>)
    ensures r.Success? <==> Prepare(codec, rec).Success?
    ensures r.Success? ==> |r.value| == |ProductList(DecodePayload(codec, rec).value).value|
  {
    var (keys, items) :- Prepare(codec, rec);
    Success(Emit(codec, rec.recordId, items, keys))
  }

  /** Output `i` of a record carries the id allocated to index `i`, `Ok`, the
      encoded line item of product `i`, and the record's calendar keys. */
  lemma RecordOutput(codec: Codec, rec: InboundRecord, i: nat)
    requires TransformRecord(codec, rec).Success? && i < |TransformRecord(codec, rec).value|
    ensures var payload := DecodePayload(codec, rec).value;
      var products := ProductList(payload).value;
      var out := TransformRecord(codec, rec).value[i];
      && i < |products|
      && out.recordId == AllocateId(rec.recordId, i)
      && out.result == Ok
      && out.data == codec.encode(ItemJson(ProjectProduct(payload, products[i]).value))
      && out.partitionKeys == CalendarKeys(OrderTimestamp(payload).value)
  {
  }

  /** The record loop body as `lambda_handler` writes it, with the
      `original_record_id_used` flag: the flag is set exactly from the second
      iteration on, so the ids agree with `AllocateId`. */
  method TransformRecordLoop(codec: Codec, rec: InboundRecord) returns (r: Result<seq<OutboundRecord>, Fault>)
    ensures r == TransformRecord(codec, rec)
  {
    var payload :- DecodePayload(codec, rec);
    var d :- OrderTimestamp(payload);
    var keys := CalendarKeys(d);
    var products :- ProductList(payload);
    var outputs: seq<OutboundRecord> := [];
    var originalRecordIdUsed := false;
    var index := 0;
    while index < |products|
      invariant index <= |products|
      invariant originalRecordIdUsed <==> index > 0
      invariant ProjectProducts(payload, products[..index]).Success?
      invariant outputs == Emit(codec, rec.recordId, ProjectProducts(payload, products[..index]).value, keys)
    {
      var projected := ProjectProduct(payload, products[index]);
      if projected.Failure? {
        TraverseFirstFailure(products, ProductStep(payload), index);
        return Failure(projected.error);
      }
      var data := codec.encode(ItemJson(projected.value));
      var uniqueRecordId;
      if !originalRecordIdUsed {
        uniqueRecordId := rec.recordId;
        originalRecordIdUsed := true;
      } else {
        uniqueRecordId := rec.recordId + "_" + Decimal(index);
      }
      assert uniqueRecordId == AllocateId(rec.recordId, index);
      TraverseSnoc(products, ProductStep(payload), index);
      EmitSnoc(codec, rec.recordId, ProjectProducts(payload, products[..index]).value, projected.value, keys);
      outputs := outputs + [OutboundRecord(uniqueRecordId, Ok, data, keys)];
      index := index + 1;
    }
    assert products[..index] == products;
    r := Success(outputs);
  }

  function Step(codec: Codec): (step: InboundRecord -> Result<seq<OutboundRecord>, Fault>) {
    rec => TransformRecord(codec, rec)
  }

  /** `lambda_handler`: the line items of every record, in record order; any
      record that raises fails the whole batch. */
  function LambdaHandler(codec: Codec, records: seq<InboundRecord>): (r: Result<seq<OutboundRecord>, Fault>)
    ensures r.Success? <==> forall i :: 0 <= i < |records| ==> TransformRecord(codec, records[i]).Success?
  {
    RunBatch(records, Step(codec))
  }

  /** The record loop as `lambda_handler` writes it: records in order, outputs appended. */
  method LambdaHandlerLoop(codec: Codec, records: seq<InboundRecord>) returns (r: Result<seq<OutboundRecord>, Fault>)
    ensures r == LambdaHandler(codec, records)
  {
    var outputs: seq<OutboundRecord> := [];
    var i := 0;
    while i < |records|
      invariant i <= |records|
      invariant RunBatch(records[..i], Step(codec)) == Success(outputs)
    {
      var one := TransformRecordLoop(codec, records[i]);
      assert Step(codec)(records[i]) == one;
      assert records[..i + 1][..i] == records[..i];
      assert records[..i + 1][i] == records[i];
      if one.Failure? {
        assert RunBatch(records[..i + 1], Step(codec)) == Failure(one.error);
        RunBatchPrefixFails(records, i + 1, Step(codec));
        return Failure(one.error);
      }
      assert RunBatch(records[..i + 1], Step(codec)) == Success(outputs + one.value);
      outputs := outputs + one.value;
      i := i + 1;
    }
    assert records[..i] == records;
    r := Success(outputs);
  }

  /** The products a record's payload lists; none when it does not decode or
      has no iterable `product_details`. */
  function ProductsOf(codec: Codec, rec: InboundRecord): (products: seq<Json>) {
    match DecodePayload(codec, rec)
    case Failure(_) => []
    case Success(payload) =>
      match ProductList(payload)
      case Success(products) => products
      case Failure(_) => []
  }

  /** A record has products only when its payload decodes and its
      `product_details` is a list; the products are that list's items. */
  lemma ProductsOfSource(codec: Codec, rec: InboundRecord)
    ensures var products := ProductsOf(codec, rec);
      |products| > 0 ==>
        && DecodePayload(codec, rec).Success?
        && Get(DecodePayload(codec, rec).value, "product_details").Success?
        && Get(DecodePayload(codec, rec).value, "product_details").value.JArray?
        && products == Get(DecodePayload(codec, rec).value, "product_details").value.items
  {
  }

  /** `len(product_details)` of each record, zero when it has none to walk. */
  function ProductCount(codec: Codec): (count: InboundRecord -> nat) {
    rec => |ProductsOf(codec, rec)|
  }

  /** The sum of `len(product_details)` over the records. */
  function TotalProducts(codec: Codec, records: seq<InboundRecord>): (total: nat) {
    Total(records, ProductCount(codec))
  }

  /** The batch total is zero exactly when no record has a product. */
  lemma TotalProductsZero(codec: Codec, records: seq<InboundRecord>)
    ensures TotalProducts(codec, records) == 0 <==>
      forall i :: 0 <= i < |records| ==> |ProductsOf(codec, records[i])| == 0
  {
    TotalZero(records, ProductCount(codec));
  }

  lemma RecordOutputCount(codec: Codec, rec: InboundRecord)
    requires TransformRecord(codec, rec).Success?
    ensures |TransformRecord(codec, rec).value| == |ProductsOf(codec, rec)|
  {
  }

  /** The record step yields one output per product. */
  lemma StepCount(codec: Codec, rec: InboundRecord)
    requires TransformRecord(codec, rec).Success?
    ensures Step(codec)(rec).Success? && |Step(codec)(rec).value| == |ProductsOf(codec, rec)|
  {
    RecordOutputCount(codec, rec);
  }

  /** The records together produce one output per product. */
  lemma ProducedIsTotalProducts(codec: Codec, records: seq<InboundRecord>)
    requires forall i :: 0 <= i < |records| ==> TransformRecord(codec, records[i]).Success?
    ensures Produced(records, Step(codec)) == TotalProducts(codec, records)
  {
    forall i | 0 <= i < |records|
      ensures Step(codec)(records[i]).Success? && |Step(codec)(records[i]).value| == ProductCount(codec)(records[i])
    {
      StepCount(codec, records[i]);
    }
    ProducedIsTotal(records, Step(codec), ProductCount(codec));
  }

  /** One output per product: the batch has the sum of `len(product_details)`
      records, and a record with no products contributes nothing. */
  lemma OutputCount(codec: Codec, records: seq<InboundRecord>)
    requires LambdaHandler(codec, records).Success?
    ensures |LambdaHandler(codec, records).value| == TotalProducts(codec, records)
  {
    RunBatchLength(records, Step(codec));
    ProducedIsTotalProducts(codec, records);
  }

  /** Order is kept: product `j` of record `k` comes after the outputs of all
      earlier records and after the earlier products of its own record. */
  lemma OutputPosition(codec: Codec, records: seq<InboundRecord>, k: nat, j: nat)
    requires LambdaHandler(codec, records).Success?
    requires k < |records| && j < |ProductsOf(codec, records[k])|
    ensures Produced(records[..k], Step(codec)) + j < |LambdaHandler(codec, records).value|
    ensures LambdaHandler(codec, records).value[Produced(records[..k], Step(codec)) + j]
            == TransformRecord(codec, records[k]).value[j]
  {
    var step := Step(codec);
    assert step(records[k]) == TransformRecord(codec, records[k]);
    assert step(records[k]).Success? && j < |step(records[k]).value| by {
      StepCount(codec, records[k]);
    }
    assert RunBatch(records, step).Success?;
    RunBatchPosition(records, step, k, j);
  }

  /** The outputs before record `k` are one per product of the earlier records. */
  lemma OutputOffset(codec: Codec, records: seq<InboundRecord>, k: nat)
    requires LambdaHandler(codec, records).Success? && k <= |records|
    ensures Produced(records[..k], Step(codec)) == TotalProducts(codec, records[..k])
  {
    assert forall i :: 0 <= i < k ==> records[..k][i] == records[i];
    ProducedIsTotalProducts(codec, records[..k]);
  }

  /** Every output id is the id allocated to some product of some input record. */
  lemma OutputIdOrigin(codec: Codec, records: seq<InboundRecord>, p: nat) returns (k: nat, j: nat)
    requires LambdaHandler(codec, records).Success?
    requires p < |LambdaHandler(codec, records).value|
    ensures k < |records| && j < |ProductsOf(codec, records[k])|
    ensures LambdaHandler(codec, records).value[p] == TransformRecord(codec, records[k]).value[j]
    ensures LambdaHandler(codec, records).value[p].recordId == AllocateId(records[k].recordId, j)
    ensures p == Produced(records[..k], Step(codec)) + j
  {
    k, j := RunBatchOrigin(records, Step(codec), p);
    assert Step(codec)(records[k]) == TransformRecord(codec, records[k]);
    RecordOutputCount(codec, records[k]);
    RecordOutput(codec, records[k], j);
  }

  /** Output ids are pairwise distinct across the whole batch when the input
      record ids are pairwise distinct and contain no `_`. */
  lemma OutputIdsDistinct(codec: Codec, records: seq<InboundRecord>)
    requires LambdaHandler(codec, records).Success?
    requires forall k :: 0 <= k < |records| ==> '_' !in records[k].recordId
    requires forall k1, k2 :: 0 <= k1 < k2 < |records| ==> records[k1].recordId != records[k2].recordId
    ensures var outs := LambdaHandler(codec, records).value;
      forall p, q :: 0 <= p < q < |outs| ==> outs[p].recordId != outs[q].recordId
  {
    var outs := LambdaHandler(codec, records).value;
    forall p, q | 0 <= p < q < |outs|
      ensures outs[p].recordId != outs[q].recordId
    {
      var k1, j1 := OutputIdOrigin(codec, records, p);
      var k2, j2 := OutputIdOrigin(codec, records, q);
      if outs[p].recordId == outs[q].recordId {
        AllocateIdInjective(records[k1].recordId, j1, records[k2].recordId, j2);
      }
    }
  }
}

=== FILE: shipping.dfy ===
/** lambda_shipping_addresses_transformation: one shipping-address record per
    input record, partitioned by destination country and by the hour of the order. */
module ShippingAddressesTransformation {
  import opened Wrappers
  import opened Faults
  import opened Json
  import opened Timestamp
  import opened Firehose

  /** The `data` dict of an output record, before encoding. */
  datatype ShippingAddress = ShippingAddress(orderId: Json, country: Json, state: Json, city: Json, street: Json, zip: Json)

  /** The address as the JSON object `json.dumps` receives, members in dict-literal order. */
  function AddressJson(a: ShippingAddress): (j: Json)
    ensures j.JObject? && DistinctNames(j.members)
    ensures Names(j.members) == {"order_id", "country", "state", "city", "street", "zip"}
    ensures Get(j, "order_id") == Success(a.orderId)
    ensures Get(j, "country") == Success(a.country)
    ensures Get(j, "state") == Success(a.state)
    ensures Get(j, "city") == Success(a.city)
    ensures Get(j, "street") == Success(a.street)
    ensures Get(j, "zip") == Success(a.zip)
  {
    var members := [("order_id", a.orderId), ("country", a.country), ("state", a.state),
                    ("city", a.city), ("street", a.street), ("zip", a.zip)];
    assert DistinctNames(members);
    ObjectLookups(members);
    assert Names(members) == {members[0].0, members[1].0, members[2].0, members[3].0, members[4].0, members[5].0};
    JObject(members)
  }

  /** `json_payload['shipping_address'][field]`. */
  function AddressField(payload: Json, field: string): (r: Result<Json, Fault>)
    ensures r.Success? <==>
      && Get(payload, "shipping_address").Success?
      && Get(Get(payload, "shipping_address").value, field).Success?
    ensures r.Failure? ==>
      r.error in {NotSubscriptable("shipping_address"), MissingKey("shipping_address"),
                  NotSubscriptable(field), MissingKey(field)}
    ensures r.Success? ==> r.value == Get(Get(payload, "shipping_address").value, field).value
  {
    var address :- Get(payload, "shipping_address");
    Get(address, field)
  }

  /** The six copied fields, looked up in the order of lines 25 and 33 to 38. */
  function SelectAddress(payload: Json): (r: Result<ShippingAddress, Fault>)
    ensures r.Success? <==>
      && AddressField(payload, "country").Success?
      && Get(payload, "order_id").Success?
      && AddressField(payload, "state").Success?
      && AddressField(payload, "city").Success?
      && AddressField(payload, "street").Success?
      && AddressField(payload, "zip").Success?
    ensures r.Success? ==>
      && r.value.country == AddressField(payload, "country").value
      && r.value.orderId == Get(payload, "order_id").value
      && r.value.state == AddressField(payload, "state").value
      && r.value.city == AddressField(payload, "city").value
      && r.value.street == AddressField(payload, "street").value
      && r.value.zip == AddressField(payload, "zip").value
  {
    var country :- AddressField(payload, "country");
    var orderId :- Get(payload, "order_id");
    var state :- AddressField(payload, "state");
    var city :- AddressField(payload, "city");
    var street :- AddressField(payload, "street");
    var zip :- AddressField(payload, "zip");
    Success(ShippingAddress(orderId, country, state, city, street, zip))
  }

  /** The address projection and partition keys of one decoded payload. Building
      the key map cannot raise, so taking it after the lookups changes no outcome. */
  function Project(payload: Json): (r: Result<(ShippingAddress, PartitionKeys), Fault>)
    ensures r.Success? <==> OrderTimestamp(payload).Success? && SelectAddress(payload).Success?
    ensures r.Success? ==>
      r.value == (SelectAddress(payload).value,
                  KeysWith(OrderTimestamp(payload).value, "country", SelectAddress(payload).value.country))
  {
    var d :- OrderTimestamp(payload);
    var address :- SelectAddress(payload);
    Success((address, KeysWith(d, "country", address.country)))
  }

  /** A payload without a `shipping_address` dict, or with one that lacks any of
      the five fields, cannot be projected. */
  lemma MissingAddressFieldFails(payload: Json, field: string)
    requires field in {"country", "state", "city", "street", "zip"}
    requires AddressField(payload, field).Failure?
    ensures Project(payload).Failure?
  {
  }

  /** One input record to its single output record. */
  function TransformRecord(codec: Codec, rec: InboundRecord): (r: Result<seq<OutboundRecord>, Fault>)
    ensures r.Success? <==> DecodePayload(codec, rec).Success? && Project(DecodePayload(codec, rec).value).Success?
    ensures r.Success? ==>
      && |r.value| == 1
      && r.value[0].recordId == rec.recordId
      && r.value[0].result == Ok
      && r.value[0].partitionKeys == Project(DecodePayload(codec, rec).value).value.1
  {
    var payload :- DecodePayload(codec, rec);
    var projection :- Project(payload);
    Success([OutboundRecord(rec.recordId, Ok, codec.encode(AddressJson(projection.0)), projection.1)])
  }

  /** `lambda_handler`: every record yields exactly one output, in input order,
      under its own record id; any record that raises fails the whole batch. */
  function LambdaHandler(codec: Codec, records: seq<InboundRecord>): (r: Result<seq<OutboundRecord>, Fault>)
    ensures r.Success? <==>
      forall i :: 0 <= i < |records| ==>
        DecodePayload(codec, records[i]).Success? && Project(DecodePayload(codec, records[i]).value).Success?
    ensures r.Success? ==>
      && |r.value| == |records|
      && forall i :: 0 <= i < |records| ==>
           var (address, keys) := Project(DecodePayload(codec, records[i]).value).value;
           r.value[i] == OutboundRecord(records[i].recordId, Ok, codec.encode(AddressJson(address)), keys)
  {
    var step := rec => TransformRecord(codec, rec);
    RunBatchOneToOne(records, step);
    RunBatch(records, step)
  }

  /** Under a lossless codec the `data` of output `i` decodes to an object whose
      `country` is the `country` partition key and whose fields are the payload's. */
  lemma OutputDecodes(codec: Codec, records: seq<InboundRecord>, i: nat)
    requires Lossless(codec)
    requires LambdaHandler(codec, records).Success? && i < |records|
    ensures var payload := DecodePayload(codec, records[i]).value;
      var out := LambdaHandler(codec, records).value[i];
      && codec.decode(out.data).Some?
      && var data := codec.decode(out.data).value;
      && Get(data, "country") == Success(out.partitionKeys["country"]) == AddressField(payload, "country")
      && Get(data, "order_id") == Get(payload, "order_id")
      && Get(data, "state") == AddressField(payload, "state")
      && Get(data, "city") == AddressField(payload, "city")
      && Get(data, "street") == AddressField(payload, "street")
      && Get(data, "zip") == AddressField(payload, "zip")
  {
    var payload := DecodePayload(codec, records[i]).value;
    var address := Project(payload).value.0;
    assert codec.decode(codec.encode(AddressJson(address))) == Some(AddressJson(address));
  }
}

=== FILE: timestamp.dfy ===
/** The order timestamp: `str.rstrip("Z")`, a restricted
    `datetime.fromisoformat` for the complete date-time representation of
    ISO 8601:2004 section 4.3.2 in its extended format `YYYY-MM-DDTHH:MM:SS`,
    and the `strftime`/`isoformat` fields the handlers take from the result. */
module Timestamp {
  import opened Wrappers
  import opened Digits

  datatype DateTime = DateTime(year: nat, month: nat, day: nat, hour: nat, minute: nat, second: nat)

  /** Gregorian leap years. */
  predicate IsLeapYear(year: nat) {
    year % 4 == 0 && (year % 100 != 0 || year % 400 == 0)
  }

  function DaysInMonth(year: nat, month: nat): (days: nat)
    requires 1 <= month <= 12
    ensures 28 <= days <= 31
    ensures days == 29 <==> month == 2 && IsLeapYear(year)
    ensures days == 28 <==> month == 2 && !IsLeapYear(year)
    ensures days == 30 <==> month == 4 || month == 6 || month == 9 || month == 11
  {
    if month == 2 then (if IsLeapYear(year) then 29 else 28)
    else if month == 4 || month == 6 || month == 9 || month == 11 then 30
    else 31
  }

  /** The values a Python `datetime` can hold (years 1 to 9999, no leap second). */
  predicate Valid(d: DateTime) {
    && 1 <= d.year <= 9999
    && 1 <= d.month <= 12
    && 1 <= d.day <= DaysInMonth(d.year, d.month)
    && d.hour < 24
    && d.minute < 60
    && d.second < 60
  }

  /** `strftime('%Y')` */
  function Year(d: DateTime): (s: string)
    ensures |s| == 4 && AllDigits(s)
    ensures d.year < 10000 ==> Value(s) == d.year
  {
    assert d.year < 10000 ==> Value(Pad(d.year, 4)) == d.year by {
      if d.year < 10000 {
        assert Pow10(4) == 10000;
        ValueOfPad(d.year, 4);
      }
    }
    Pad(d.year, 4)
  }

  /** `strftime('%m')` */
  function Month(d: DateTime): (s: string)
    ensures |s| == 2 && AllDigits(s)
    ensures d.month < 100 ==> Value(s) == d.month
  {
    Pad(d.month, 2)
  }

  /** `strftime('%d')` */
  function Day(d: DateTime): (s: string)
    ensures |s| == 2 && AllDigits(s)
    ensures d.day < 100 ==> Value(s) == d.day
  {
    Pad(d.day, 2)
  }

  /** `strftime('%H')` */
  function Hour(d: DateTime): (s: string)
    ensures |s| == 2 && AllDigits(s)
    ensures d.hour < 100 ==> Value(s) == d.hour
  {
    Pad(d.hour, 2)
  }

  /** `d.date().isoformat()` */
  function IsoDate(d: DateTime): (s: string)
    ensures |s| == 10 && s[4] == '-' && s[7] == '-'
    ensures s[..4] == Year(d) && s[5..7] == Month(d) && s[8..] == Day(d)
  {
    Year(d) + "-" + Month(d) + "-" + Day(d)
  }

  /** `d.time().isoformat()` for a value without microseconds. */
  function IsoTime(d: DateTime): (s: string) {
    Hour(d) + ":" + Pad(d.minute, 2) + ":" + Pad(d.second, 2)
  }

  /** `d.isoformat()` for a value without microseconds. */
  function IsoFormat(d: DateTime): (s: string) {
    IsoDate(d) + "T" + IsoTime(d)
  }

  /** The character layout `YYYY-MM-DDTHH:MM:SS`. */
  predicate Shaped(s: string) {
    && |s| == 19
    && s[4] == '-' && s[7] == '-' && s[10] == 'T' && s[13] == ':' && s[16] == ':'
    && AllDigits(s[0..4]) && AllDigits(s[5..7]) && AllDigits(s[8..10])
    && AllDigits(s[11..13]) && AllDigits(s[14..16]) && AllDigits(s[17..19])
  }

  /** The fields of a shaped text, not yet range-checked. */
  function Fields(s: string): (d: DateTime)
    requires Shaped(s)
  {
    DateTime(Value(s[0..4]), Value(s[5..7]), Value(s[8..10]),
             Value(s[11..13]), Value(s[14..16]), Value(s[17..19]))
  }

  /** Three fields with a separator after each of the first two. */
  lemma Joined(t: string, a: string, sep1: char, b: string, sep2: char, c: string)
    requires |t| == |a| + |b| + |c| + 2
    requires t[..|a|] == a && t[|a|] == sep1
    requires t[|a| + 1..|a| + 1 + |b|] == b && t[|a| + 1 + |b|] == sep2
    requires t[|a| + |b| + 2..] == c
    ensures a + [sep1] + b + [sep2] + c == t
  {
    var u := a + [sep1] + b + [sep2] + c;
    forall i | 0 <= i < |t|
      ensures u[i] == t[i]
    {
      if i < |a| {
        assert u[i] == a[i] == t[..|a|][i];
      } else if |a| < i < |a| + 1 + |b| {
        assert u[i] == b[i - |a| - 1] == t[|a| + 1..|a| + 1 + |b|][i - |a| - 1];
      } else if |a| + 1 + |b| < i {
        assert u[i] == c[i - |a| - |b| - 2] == t[|a| + |b| + 2..][i - |a| - |b| - 2];
      }
    }
  }

  /** A field of a shaped text is printed back as itself. */
  lemma PadSlice(s: string, i: nat, j: nat)
    requires i <= j <= |s| && AllDigits(s[i..j])
    ensures Pad(Value(s[i..j]), j - i) == s[i..j]
  {
    PadOfValue(s[i..j]);
  }

  lemma IsoDateOfFields(s: string)
    requires Shaped(s)
    ensures IsoDate(Fields(s)) == s[..10]
  {
    var d := Fields(s);
    assert Year(d) == s[0..4] by { PadSlice(s, 0, 4); }
    assert Month(d) == s[5..7] by { PadSlice(s, 5, 7); }
    assert Day(d) == s[8..10] by { PadSlice(s, 8, 10); }
    var t := s[..10];
    assert t[..4] == s[0..4] && t[5..7] == s[5..7] && t[8..] == s[8..10];
    Joined(t, s[0..4], '-', s[5..7], '-', s[8..10]);
  }

  lemma IsoTimeOfFields(s: string)
    requires Shaped(s)
    ensures IsoTime(Fields(s)) == s[11..]
  {
    var d := Fields(s);
    assert Hour(d) == s[11..13] by { PadSlice(s, 11, 13); }
    assert Pad(d.minute, 2) == s[14..16] by { PadSlice(s, 14, 16); }
    assert Pad(d.second, 2) == s[17..19] by { PadSlice(s, 17, 19); }
    var t := s[11..];
    assert t[..2] == s[11..13] && t[3..5] == s[14..16] && t[6..] == s[17..19];
    Joined(t, s[11..13], ':', s[14..16], ':', s[17..19]);
  }

  lemma IsoFormatOfFields(s: string)
    requires Shaped(s)
    ensures IsoFormat(Fields(s)) == s
  {
    IsoDateOfFields(s);
    IsoTimeOfFields(s);
    assert s == s[..10] + [s[10]] + s[11..];
  }

  /** `datetime.fromisoformat`, restricted to `YYYY-MM-DDTHH:MM:SS`: None is a
      text outside the accepted form (the ValueError, for texts of this form).
      A successful parse is a valid date-time whose ISO form is the text itself. */
  function ParseIso(s: string): (r: Option<DateTime>)
    ensures r.Some? ==> Valid(r.value) && IsoFormat(r.value) == s
  {
    if Shaped(s) && Valid(Fields(s)) then
      IsoFormatOfFields(s);
      Some(Fields(s))
    else
      None
  }

  /** Every valid date-time is parsed back from its ISO form. */
  lemma ParseIsoOfIsoFormat(d: DateTime)
    requires Valid(d)
    ensures ParseIso(IsoFormat(d)) == Some(d)
  {
    var s := IsoFormat(d);
    assert s[0..4] == Year(d);
    assert s[5..7] == Month(d);
    assert s[8..10] == Day(d);
    assert s[11..13] == Hour(d);
    assert s[14..16] == Pad(d.minute, 2);
    assert s[17..19] == Pad(d.second, 2);
    ValueOfPad(d.year, 4);
    ValueOfPad(d.month, 2);
    ValueOfPad(d.day, 2);
    ValueOfPad(d.hour, 2);
    ValueOfPad(d.minute, 2);
    ValueOfPad(d.second, 2);
    assert Shaped(s);
    assert Fields(s) == d;
  }

  /** The parser accepts exactly the ISO forms of valid date-times. */
  lemma ParseIsoExactly(s: string, d: DateTime)
    ensures ParseIso(s) == Some(d) <==> Valid(d) && IsoFormat(d) == s
  {
    if Valid(d) && IsoFormat(d) == s {
      ParseIsoOfIsoFormat(d);
    }
  }

  /** `s.rstrip(c)` for a single character: drops every trailing `c`. */
  function RStrip(s: string, c: char): (r: string)
    ensures |r| <= |s| && r == s[..|r|]
    ensures |r| == 0 || r[|r| - 1] != c
    ensures forall i :: |r| <= i < |s| ==> s[i] == c
  {
    if |s| > 0 && s[|s| - 1] == c then RStrip(s[..|s| - 1], c) else s
  }

  /** The three properties above pin the stripped text down. */
  lemma RStripUnique(s: string, c: char, r: string)
    requires |r| <= |s| && r == s[..|r|]
    requires |r| == 0 || r[|r| - 1] != c
    requires forall i :: |r| <= i < |s| ==> s[i] == c
    ensures RStrip(s, c) == r
  {
    var t := RStrip(s, c);
    assert |t| == |r|;
  }

  /** Stripping twice strips no more than once. */
  lemma RStripIdempotent(s: string, c: char)
    ensures RStrip(RStrip(s, c), c) == RStrip(s, c)
  {
  }

  function Repeat(c: char, k: nat): (s: string)
    ensures |s| == k && forall i :: 0 <= i < k ==> s[i] == c
  {
    seq(k, _ => c)
  }

  /** Appending any number of `c` does not change what `rstrip(c)` returns. */
  lemma {:induction false} RStripAppended(s: string, c: char, k: nat)
    ensures RStrip(s + Repeat(c, k), c) == RStrip(s, c)
  {
    if k > 0 {
      var t := s + Repeat(c, k);
      assert t[..|t| - 1] == s + Repeat(c, k - 1);
      RStripAppended(s, c, k - 1);
    } else {
      assert s + Repeat(c, k) == s;
    }
  }

  /** `datetime.fromisoformat(text.rstrip("Z"))`: the UTC designator `Z` of
      ISO 8601:2004 section 4.2.4 is removed, never interpreted. */
  function ParseOrderDate(text: string): (r: Option<DateTime>)
    ensures r.Some? ==> Valid(r.value) && IsoFormat(r.value) == RStrip(text, 'Z')
  {
    ParseIso(RStrip(text, 'Z'))
  }

  /** Timestamps with and without trailing `Z`s parse alike. */
  lemma TrailingZIgnored(text: string, k: nat)
    ensures ParseOrderDate(text + Repeat('Z', k)) == ParseOrderDate(text)
  {
    RStripAppended(text, 'Z', k);
  }

  /** The calendar fields are the digits of the stripped text, verbatim. */
  lemma CalendarFieldsOfText(text: string, d: DateTime)
    requires ParseOrderDate(text) == Some(d)
    ensures var s := RStrip(text, 'Z');
      && |s| == 19
      && Year(d) == s[0..4] && Month(d) == s[5..7] && Day(d) == s[8..10] && Hour(d) == s[11..13]
      && IsoDate(d) == s[..10]
  {
    var s := RStrip(text, 'Z');
    assert IsoFormat(d) == s;
    assert s[0..4] == Year(d);
    assert s[5..7] == Month(d);
    assert s[8..10] == Day(d);
    assert s[11..13] == Hour(d);
    assert s[..10] == IsoDate(d);
  }
}

=== FILE: wrappers.dfy ===
/** Failure-compatible Option and Result types, usable with `:-`. */
module Wrappers {

  datatype Option<+T> = None | Some(value: T) {

    predicate IsFailure() {
      None?
    }

    function PropagateFailure<U>(): Option<U>
      requires None?
    {
      None
    }

    function Extract(): T
      requires Some?
    {
      value
    }
  }

  datatype Result<+R, +E> = Success(value: R) | Failure(error: E) {

    predicate IsFailure() {
      Failure?
    }

    function PropagateFailure<U>(): Result<U, E>
      requires Failure?
    {
      Failure(error)
    }

    function Extract(): R
      requires Success?
    {
      value
    }
  }

  /** Applies `f` to the elements in order; the first failure is the result. */
  function Traverse<A, B, E>(xs: seq<A>, f: A -> Result<B, E>): (r: Result<seq<B>, E>)
    ensures r.Success? <==> forall i :: 0 <= i < |xs| ==> f(xs[i]).Success?
    ensures r.Success? ==> |r.value| == |xs| && forall i :: 0 <= i < |xs| ==> r.value[i] == f(xs[i]).value
  {
    if |xs| == 0 then Success([])
    else
      var init := xs[..|xs| - 1];
      assert forall i :: 0 <= i < |init| ==> init[i] == xs[i];
      var done :- Traverse(init, f);
      var last :- f(xs[|xs| - 1]);
      Success(done + [last])
  }

  /** An element that fails after elements that did not decides the outcome. */
  lemma {:induction false} TraverseFirstFailure<A, B, E>(xs: seq<A>, f: A -> Result<B, E>, k: nat)
    requires k < |xs|
    requires Traverse(xs[..k], f).Success?
    requires f(xs[k]).Failure?
    ensures Traverse(xs, f) == Failure(f(xs[k]).error)
    decreases |xs|
  {
    var init := xs[..|xs| - 1];
    if k < |init| {
      assert init[..k] == xs[..k];
      TraverseFirstFailure(init, f, k);
    } else {
      assert init == xs[..k];
    }
  }

  /** Traversing one more element appends its result. */
  lemma TraverseSnoc<A, B, E>(xs: seq<A>, f: A -> Result<B, E>, k: nat)
    requires k < |xs|
    requires Traverse(xs[..k], f).Success? && f(xs[k]).Success?
    ensures Traverse(xs[..k + 1], f) == Success(Traverse(xs[..k], f).value + [f(xs[k]).value])
  {
    assert xs[..k + 1][..k] == xs[..k];
  }
}
